=== FILE: README.md ===
# Portfolio cursor trail and typewriter, modelled in Dafny

This project models the logic inside the visual-effects script of a personal
portfolio page (`js/main.js`). It covers five parts:

- **Trail chain** (`trail.dfy`, module `Trail`): one frame of `updateCursor`.
  The main cursor snaps to the pointer. Each of the eleven trailers closes the
  fraction `ease(i) = 0.15 - 0.005 i` of its distance to the predecessor. It
  uses the position the predecessor reached in the same frame. Detached
  elements are skipped. Trailers are painted with a fading tail look: scale,
  opacity, hue and saturation.
- **Cursor lifecycle** (`lifecycle.dfy`, module `Lifecycle`): the globals
  `isCustomCursor`, `animationId` and `cursorTrails`, and the handlers that
  change them. These are `initCursor`, the self-rearming `updateCursor`
  frame callback, the cursor-toggle click, `handleMobileDetection` (run at
  DOM-ready and after each debounced resize) and the `mousemove` listener.
  The browser's animation-frame queue is a count of requested frames that
  have not yet fired or been cancelled.
- **Typewriter** (`typewriter.dfy`, module `Typewriter`): the `typeWriter`
  closure's state `(textIndex, charIndex, isDeleting)`. The step is stated
  over any list of non-empty strings. The scenario lemmas use the page's four
  strings. Each tick yields the text it writes and the delay it schedules
  (60, 30, 1500 or 300 ms).
- **Scroll handlers** (`scroll.dfy`, module `Scroll`): the progress-bar
  percentage and the header's `scrolled` threshold.
- **Project panels** (`projects.dfy`, module `Projects`):
  `showProjectDetails` and the close buttons.

Positions, easing and percentages are Dafny `real`s, which are exact
rationals. Element handles are records holding the style values the script
writes. Timers and frame callbacks are explicit events.

The code does the following, which may surprise a reader. The model follows
the code as written:

- A resize back above 768 px does not switch the custom cursor back on.
  `handleMobileDetection` only ever disables it, and it also hides the toggle
  button, so no later event switches the cursor on (`Lifecycle.MobileIsFinal`).
- `handleMobileDetection` hides the cursor elements (`display: none`). It
  does not remove them from the page or empty `cursorTrails`: the list keeps
  its nodes, hidden and in place (`Lifecycle.HandleMobileDetection`).
- A node whose element has left the document is skipped entirely. Its
  logical position is not updated either (`Trail.AdvanceSkipsDetached`).
- The ease is not clamped. It stays positive because the chain never has
  more than twelve nodes (`Trail.Ease`, `Lifecycle.Good`).
- Toggling the cursor back on calls `updateCursor` synchronously. A double
  toggle therefore restores the flags and the painted opacities, but
  advances positions by one frame (`Lifecycle.ToggleTwiceFromOn`).

## Model

| member | source | states |
|---|---|---|
| Trail.Ease | js/main.js:130 | the per-trailer ease never exceeds 0.15 and is positive (above 0.09) for every index of a twelve-node chain |
| Trail.EaseDecreasing | js/main.js:130 | a later trailer closes a strictly smaller fraction of its gap |
| Trail.TailScale | js/main.js:143 | a trailer's scale is floored at 0.2 and never exceeds 1 |
| Trail.TailOpacity | js/main.js:144 | a trailer's opacity is floored at 0.05 and never exceeds 0.7 |
| Trail.TailHue | js/main.js:149 | the hue is at least 330 |
| Trail.TailSaturation | js/main.js:150 | saturation is floored at 50 and never exceeds 100 |
| Trail.TailFades | js/main.js:143-150 | down the tail, scale, opacity and saturation never grow and the hue only grows |
| Trail.StepNode | js/main.js:113-152 | a detached node comes back unchanged; the attached leader and its target snap to the pointer; an attached trailer targets its predecessor and closes the fraction `ease(i)` of the gap on each axis; an attached element is drawn at its node's new position, trailers with the tail opacity and look, the main cursor keeping its own; no node changes its main, attached or displayed status |
| Trail.Advance | js/main.js:112-154 | one frame keeps the chain's length; entry i is the single-node step applied to entry i of the input, given entry i-1 of the result (strict ascending order) |
| Trail.AdvanceSkipsDetached | js/main.js:113-115 | a node whose element is detached comes out of the frame unchanged; no node changes its main or attached status |
| Trail.AdvanceLeader | js/main.js:117-122 | after a frame, the attached leader and its target sit exactly on the pointer |
| Trail.AdvanceFollows | js/main.js:123-133 | an attached trailer targets its predecessor's new position and moves `x + (x'_{i-1} - x) * ease(i)` on each axis |
| Trail.AdvanceApproaches | js/main.js:127-132 | a trailer's remaining distance to its predecessor shrinks by the factor `1 - ease(i)`, and strictly whenever it was non-zero |
| Trail.AdvancePaints | js/main.js:136-152 | an attached element is drawn at its node's position; trailers get the tail opacity and look; the main cursor keeps its own opacity and look |
| Trail.AdvanceFloors | js/main.js:142-150 | after a frame, every attached trailer has scale at least 0.2, opacity at least 0.05 and saturation at least 50 |
| Trail.AdvanceInPlace | js/main.js:112-154 | the in-place loop over the list, updating entries in index order, computes exactly the functional frame |
| Lifecycle.Boot | js/main.js:3-6 | the script starts with the custom cursor on, no trail and no pending frame, in a state satisfying the lifecycle invariant |
| Lifecycle.UpdateCursor | js/main.js:105-161 | with the cursor off or no trail it clears `animationId` and requests nothing; otherwise it advances the chain, puts the leader on the pointer and requests exactly one frame; elements are neither added nor re-shown |
| Lifecycle.FrameFires | js/main.js:156 | with no frame requested nothing happens; the frame of a live loop advances the chain one step and requests its successor, so the count of outstanding frames is unchanged; the frame of a stopped loop clears `animationId` and requests nothing |
| Lifecycle.CancelFrame | js/main.js:430-433 | cancelling clears `animationId` and, under the invariant, leaves no frame outstanding |
| Lifecycle.NewNode | js/main.js:32-83 | a created node is attached and displayed, main only at index 0, at rest on its own target at the viewport centre, drawn there with the plain look, at opacity 1 or 0 as the cursor flag says |
| Lifecycle.FreshTrail | js/main.js:31-84 | creation yields twelve attached, shown nodes at the viewport centre, only the first of them main, all at opacity 1 or 0 as the cursor flag says |
| Lifecycle.InitCursor | js/main.js:14-102 | the old trail is discarded; a mobile width leaves it empty with nothing else changed; otherwise the trail is the twelve freshly created nodes (centred, opacity 1 or 0 as the cursor flag says), or, when the cursor is on and no loop runs, those nodes advanced by the first frame, which runs at once, leaves the trail painted and starts the loop |
| Lifecycle.InitDiscardsOld | js/main.js:22 | the result of `initCursor` does not depend on the previous trail list, which the reset empties |
| Lifecycle.InitTwice | js/main.js:14-102 | two initialisations in a row leave a trail list of twelve nodes (zero on mobile), not twenty-four, with at most one outstanding frame |
| Lifecycle.SetOpacity | js/main.js:493-503 | every element gets the given opacity; position, attachment, main status and display are unchanged |
| Lifecycle.Toggle | js/main.js:488-508 | the click flips the flag and the body class; turning off zeroes every opacity and stops the loop, keeping every element's position, attachment, main status and display and the pointer; turning on sets every opacity to 1 and, from an idle loop, runs a frame that repaints the trailers, leaving the trail painted and the loop running |
| Lifecycle.Hide | js/main.js:419-423 | every element is hidden and nothing else about it changes |
| Lifecycle.HandleMobileDetection | js/main.js:413-440 | at width 768 or less the cursor is switched off, the loop cancelled, the toggle button and every element hidden, and positions kept; above 768 nothing changes |
| Lifecycle.MouseMove | js/main.js:448-454 | the pointer is recorded; an idle loop with the cursor on is started and puts the leader on the pointer; a running loop or an off cursor leaves the trail and the frames alone |
| Lifecycle.AdvanceWellFormed | js/main.js:112-154 | a frame keeps the trail's shape (empty or twelve, only the first main) |
| Lifecycle.ApplyGood | js/main.js:105-161 | every handler (`updateCursor` here, and `initCursor` at lines 14-102, `handleMobileDetection` at 413-440, the mousemove listener at 448-454 and the toggle click at 488-508) keeps the invariant: one frame outstanding exactly while `animationId` is set; a loop and the body class only with the cursor on; a hidden toggle button only with the cursor off; while the button is shown, an off cursor's elements all at opacity 0; the trail well formed |
| Lifecycle.Apply | js/main.js:616-702 | one invocation of a handler wired at load, DOM-ready or resize (lines 616-702), on mousemove (448-454) or on the toggle click (484-509): a click reaches the toggle only while its button is displayed; only such a click switches the cursor on; a hidden button is never shown again; only `initCursor` changes the trail's length; only mousemove changes the recorded pointer |
| Lifecycle.Run | js/main.js:616-702 | over any sequence of handler invocations, an off cursor comes back on only if the sequence holds a toggle click, and never once its button is hidden; the trail's length changes only if the sequence holds an `initCursor` call |
| Lifecycle.RunGood | js/main.js:616-702 | any sequence of handler invocations keeps the invariant, so two animation loops never run at once |
| Lifecycle.FrameStops | js/main.js:107-110 | with the cursor off or no trail, the pending frame fires without re-arming, and afterwards frames change nothing |
| Lifecycle.FrameContinues | js/main.js:156 | while the cursor is on with a trail, a frame advances the chain and leaves exactly one successor frame requested |
| Lifecycle.AdvanceIgnoresStyle | js/main.js:117-133 | the positions a frame computes depend only on positions and attachment, never on styles |
| Lifecycle.AdvancePaintsAll | js/main.js:142-147 | a frame over fully opaque, well-formed elements leaves the trail painted: attached trailers at their tail opacity, everything else at 1 |
| Lifecycle.ToggleTwiceFromOn | js/main.js:488-508 | toggling twice from on restores the flag, the body class, the running loop with one frame, and every painted opacity; positions are those of one frame |
| Lifecycle.ToggleTwiceFromOff | js/main.js:488-508 | two clicks from off restore the flag, the body class, the idle loop and every element's opacity; with the button shown positions are those of one frame, with it hidden nothing changes |
| Lifecycle.MobileIsFinal | js/main.js:413-440 | after a mobile width the cursor is off, its button hidden and no frame outstanding, and no later resize or sequence of events switches it back on |
| Lifecycle.ResizeAll | js/main.js:696-702 | over a series of debounced resize calls the cursor stays on exactly when it was on and no width was 768 or less; the trail keeps its length |
| Typewriter.TextsRotation | js/main.js:242-247 | the page's list has four strings, none of them empty |
| Typewriter.Step | js/main.js:253-282 | a tick keeps the index bounds; the text written is the first `charIndex` characters of the current string; typing adds one character and deleting removes one; the delay is 1500 exactly at the full string, 300 exactly at empty (moving to the next string, wrapping at the end of the list), otherwise 60 typing and 30 deleting |
| Typewriter.Run | js/main.js:278 | any number of ticks from a valid state keeps the index bounds |
| Typewriter.RunAdd | js/main.js:278 | running a plus b ticks is running a ticks and then b ticks |
| Typewriter.TypingPhase | js/main.js:263-271 | from position j, k typing ticks reach position j+k, turning to deleting exactly at the full length |
| Typewriter.DeletingPhase | js/main.js:259-276 | from position j, k deleting ticks reach j-k, and at zero the next string starts in typing mode |
| Typewriter.Cycle | js/main.js:253-282 | `2 * |texts[t]|` ticks take the start of string t to the start of the next string, wrapping at the end of the list |
| Typewriter.Period | js/main.js:242-276 | after twice the total length of the four strings, the rotator is back at its initial state |
| Typewriter.FirstStringTyped | js/main.js:263-271 | the `|texts[0]|`-th tick writes the whole first string with a 1500 ms pause, and the next tick deletes one character at 30 ms |
| Scroll.Clamp | js/main.js:208 | the result lies in `[lo, hi]`; it is the input when the input is inside, and the nearer bound otherwise |
| Scroll.ScrollWidth | js/main.js:207-208 | the width is in [0,100]; it is the exact scrolled fraction inside the scrollable range and sticks to 0 or 100 past its ends; it is NaN exactly when range and offset are both zero |
| Scroll.UpdateScrollIndicator | js/main.js:203-213 | the bar stays within [0,100]; it takes every computed numeric width, and a NaN width (zero range at offset zero) leaves the previous width in place |
| Scroll.ScrollWidthMonotone | js/main.js:207-208 | scrolling further down never shrinks the bar |
| Scroll.ScrollScenario | js/main.js:207-208 | a 2000 px page in a 1000 px viewport gives 50 % at offset 500 and a clamped 100 % at 1200 |
| Scroll.UpdateHeader | js/main.js:216-229 | the header carries `scrolled` exactly when the offset exceeds 50 px |
| Scroll.HeaderThresholdMonotone | js/main.js:220-224 | the header state is monotone in the offset and independent of its previous value |
| Projects.DetailsId | js/main.js:401 | a panel id is `details-` followed by the project id |
| Projects.DetailsIdInjective | js/main.js:401 | two project ids name the same panel exactly when they are equal |
| Projects.FirstWithId | js/main.js:401 | the lookup returns the first panel in document order with the id, or none |
| Projects.ShowProjectDetails | js/main.js:395-410 | at most one panel is active: the first with id `details-<projectId>`; none if no panel has it; ids unchanged |
| Projects.CloseDetails | js/main.js:561-569 | a close button deactivates its own panel and no other |
| Projects.ShowThenClose | js/main.js:397-405 | closing the panel that was just shown leaves no panel active |
| Projects.ShowIdempotent | js/main.js:397-405 | showing the same project twice equals showing it once |

## Left out

- Floating point: JavaScript numbers are IEEE doubles; the model uses exact reals, so rounding in the easing and the percentage is not modelled.
- DOM styles as text: sizes, gradients, shadows, `translate`/`scale` strings and the `hsla(...)` colour string are reduced to the numeric values written. New elements are placed at `left: 50%; top: 50%` (js/main.js:53-54 and js/main.js:70-71), which `Lifecycle.NewNode` reads as half the viewport width and height in pixels. For a fixed element the two differ by half the scrollbar's width.
- Console logging and every `try`/`catch`: nothing in the model can fail. The fallback in `initCursor`'s catch block (switching the custom cursor off) is not modelled.
- Timers: `requestAnimationFrame` is a count of outstanding requests plus the `FrameDue` event. `setTimeout` for the typewriter becomes the returned delay. The `debounce` closure is not modelled; each `Resized` event is one debounced call.
- The age counter (`updateAgeCounter`): it depends on the clock and on `toFixed(9)` float formatting.
- The stats counters, IntersectionObserver reveals and skill bars: float accumulation driven by frames and observer callbacks.
- Parallax, the mobile menu, anchor smooth scrolling, the hero button, hover and mouse-down/up scale effects, the loading-screen sequencing and the `beforeunload` cleanup: event plumbing over browser APIs with no logic beyond one style or class write.
- The cursor-toggle button's text and title.
- The project-button handler's DOM walk (`closest('.project-card')`, the empty-id check).
- Projects.CloseDetails: takes the index of the panel that holds the button. A close button outside every panel (the `if (detailElement)` guard at js/main.js:565) changes nothing, and is not modelled.
- Elements with a `details-…` id that are not `.project-details` panels: `getElementById` is modelled over the panel list only.
- Typewriter.Step: requires a valid state. The closure's state is private and every tick from the initial state keeps it valid (`Typewriter.Run`). JavaScript's clamping of out-of-range `substring` arguments is therefore never exercised and is not modelled.
- Typewriter.Rotation: the step is stated only for lists without an empty string. With an empty string the source would keep typing past the end and never delete. The page's four strings are all non-empty (`Typewriter.TextsRotation`).
- The typewriter's missing-element guards: the text element is assumed present.
- The other missing-element guards: the scroll indicator (js/main.js:206), the header (js/main.js:219) and the cursor-toggle button (js/main.js:425-428 and js/main.js:483) are assumed present. Without the button, the toggle handler is never attached and `Lifecycle.ToggleClick` cannot occur.
- The page's `.cursor` and `.cursor-trail` elements are identified with the `cursorTrails` list. The removal loop at js/main.js:17-21 is what keeps the two equal when `initCursor` runs again. It is not modelled separately, so `Lifecycle.InitTwice` speaks about the list. Without that loop the list would still hold twelve nodes, but the page would hold twenty-four elements.
- String lengths are JavaScript UTF-16 code-unit counts. The four strings contain only precomposed characters of the Basic Multilingual Plane, so one Dafny `char` is one code unit.
- Lifecycle.UpdateCursor: states only the leader's landing position in its own contract. The full per-node frame is stated by `Trail.Advance` and the lemmas after it, and `Lifecycle.FrameContinues` ties a frame to `Trail.Advance`.

=== FILE: lifecycle.dfy ===
/**
 The custom cursor's lifecycle (js/main.js): the global flags `isCustomCursor`
 and `animationId`, the `cursorTrails` list, and the handlers that change them
 — `initCursor`, `updateCursor` as the self-rearming frame callback, the
 cursor-toggle click, `handleMobileDetection` and the `mousemove` listener.
 The animation-frame queue is reduced to a count of requests not yet fired or
 cancelled.
 */
module Lifecycle {
  import opened Trail

  /** Viewport widths at or below this many pixels count as mobile. */
  const MobileBreakpoint: int := 768

  datatype Cursor = Cursor(
    isCustomCursor: bool,
    animating: bool,      // `animationId != null`
    frames: nat,          // requested animation frames that have neither fired nor been cancelled
    trails: seq<Node>,
    mouseX: real,
    mouseY: real,
    bodyClass: bool,      // the body carries the `custom-cursor` class
    toggleShown: bool)    // the cursor-toggle button is displayed

  /** The trail list has the shape `initCursor` gives it: empty, or twelve nodes of which only the first is main. */
  predicate WellFormed(ts: seq<Node>)
  {
    && (|ts| == 0 || |ts| == TrailLength)
    && forall i :: 0 <= i < |ts| ==> (ts[i].isMain <==> i == 0)
  }

  /**
   What every handler keeps true: exactly one animation frame is outstanding
   while `animationId` is set and none otherwise; a loop only runs, and the
   body only carries `custom-cursor`, while the custom cursor is on; a hidden
   toggle button means the cursor was switched off for good; and while the
   button is shown, an off cursor has every element at opacity 0, as the
   "off" click or `initCursor` left it.
   */
  predicate Good(c: Cursor)
  {
    && c.frames == (if c.animating then 1 else 0)
    && (c.animating ==> c.isCustomCursor)
    && (c.bodyClass ==> c.isCustomCursor)
    && (!c.toggleShown ==> !c.isCustomCursor)
    && (!c.isCustomCursor && c.toggleShown ==>
          forall i :: 0 <= i < |c.trails| ==> c.trails[i].style.opacity == 0.0)
    && WellFormed(c.trails)
  }

  /** The globals as the script declares them: pointer at the origin, custom cursor on, no trail, no frame. */
  function Boot(): (c: Cursor)
    ensures Good(c) && c.isCustomCursor && !c.animating && |c.trails| == 0
  {
    Cursor(true, false, 0, [], 0.0, 0.0, false, true)
  }

  /**
   The body of `updateCursor`: with the cursor off or no trail it clears
   `animationId` and stops; otherwise it advances the chain one frame and
   requests the next frame.
   */
  function UpdateCursor(c: Cursor): (r: Cursor)
    ensures |r.trails| == |c.trails|
    ensures !c.isCustomCursor || |c.trails| == 0 ==>
              !r.animating && r.frames == c.frames && r.trails == c.trails
    ensures c.isCustomCursor && |c.trails| > 0 ==>
              r.animating && r.frames == c.frames + 1
              && (c.trails[0].attached ==> r.trails[0].x == c.mouseX && r.trails[0].y == c.mouseY)
    // a frame never adds, removes, re-attaches or re-shows an element
    ensures forall i :: 0 <= i < |r.trails| ==>
              r.trails[i].isMain == c.trails[i].isMain && r.trails[i].attached == c.trails[i].attached
              && r.trails[i].style.shown == c.trails[i].style.shown
    ensures r.isCustomCursor == c.isCustomCursor && r.mouseX == c.mouseX && r.mouseY == c.mouseY
  {
    if !c.isCustomCursor || |c.trails| == 0 then
      c.(animating := false)
    else
      var ts := Advance(c.trails, c.mouseX, c.mouseY);
      assert c.trails[0].attached ==> ts[0].x == c.mouseX && ts[0].y == c.mouseY by {
        if c.trails[0].attached {
          AdvanceLeader(c.trails, c.mouseX, c.mouseY);
        }
      }
      assert forall i :: 0 <= i < |ts| ==> ts[i].style.shown == c.trails[i].style.shown by {
        forall i | 0 <= i < |ts|
          ensures ts[i].style.shown == c.trails[i].style.shown
        {
          AdvanceSkipsDetached(c.trails, c.mouseX, c.mouseY);
          if c.trails[i].attached {
            AdvancePaints(c.trails, c.mouseX, c.mouseY, i);
          }
        }
      }
      AdvanceSkipsDetached(c.trails, c.mouseX, c.mouseY);
      c.(trails := ts, frames := c.frames + 1, animating := true)
  }

  /** The browser runs the pending frame callback, if there is one. */
  function FrameFires(c: Cursor): (r: Cursor)
    ensures c.frames == 0 ==> r == c
    // a live loop consumes its frame, advances the chain and re-arms
    ensures c.frames > 0 && c.isCustomCursor && |c.trails| > 0 ==>
              r.animating && r.frames == c.frames && r.trails == Advance(c.trails, c.mouseX, c.mouseY)
    // a dead loop consumes its frame and clears `animationId`
    ensures c.frames > 0 && (!c.isCustomCursor || |c.trails| == 0) ==>
              !r.animating && r.frames == c.frames - 1 && r.trails == c.trails
    ensures r.isCustomCursor == c.isCustomCursor && r.mouseX == c.mouseX && r.mouseY == c.mouseY
  {
    if c.frames == 0 then c else UpdateCursor(c.(frames := c.frames - 1))
  }

  /** `cancelAnimationFrame(animationId); animationId = null`, guarded by `if (animationId)`. */
  function CancelFrame(c: Cursor): (r: Cursor)
    ensures !r.animating
    ensures Good(c) ==> r.frames == 0
    ensures r.trails == c.trails && r.isCustomCursor == c.isCustomCursor
  {
    if c.animating then
      c.(animating := false, frames := if c.frames > 0 then c.frames - 1 else 0)
    else c
  }

  /** A freshly created node, centred in a viewport of the given size. */
  function NewNode(i: nat, width: int, height: int, visible: bool): (n: Node)
    ensures n.attached && n.style.shown && (n.isMain <==> i == 0)
    // it rests on its own target at the viewport centre, and is drawn there
    ensures n.x == n.targetX == (width as real) / 2.0 && n.y == n.targetY == (height as real) / 2.0
    ensures n.style.left == n.x && n.style.top == n.y && n.style.look == Plain
    ensures n.style.opacity == (if visible then 1.0 else 0.0)
  {
    var cx := (width as real) / 2.0;
    var cy := (height as real) / 2.0;
    Node(cx, cy, cx, cy, i == 0, true, Style(cx, cy, if visible then 1.0 else 0.0, true, Plain))
  }

  /** The twelve nodes the creation loop appends, in order. */
  function FreshTrail(width: int, height: int, visible: bool): (ts: seq<Node>)
    ensures |ts| == TrailLength && WellFormed(ts)
    ensures forall i :: 0 <= i < |ts| ==>
              ts[i].attached && ts[i].style.shown
              && ts[i].x == (width as real) / 2.0 && ts[i].y == (height as real) / 2.0
              && ts[i].style.opacity == (if visible then 1.0 else 0.0)
  {
    seq(TrailLength, i requires 0 <= i => NewNode(i, width, height, visible))
  }

  /**
   `initCursor`: the previous trail is always thrown away first; on a mobile
   width nothing is rebuilt; otherwise exactly twelve nodes are created at the
   viewport centre and, with the custom cursor on and no loop running, the
   first frame runs at once.
   */
  function InitCursor(c: Cursor, width: int, height: int): (r: Cursor)
    ensures width <= MobileBreakpoint ==> r == c.(trails := [])
    ensures width > MobileBreakpoint ==>
              |r.trails| == TrailLength && WellFormed(r.trails)
              && (forall i :: 0 <= i < |r.trails| ==> r.trails[i].attached && r.trails[i].style.shown)
    ensures width > MobileBreakpoint && (!c.isCustomCursor || c.animating) ==>
              forall i :: 0 <= i < |r.trails| ==>
                r.trails[i].x == (width as real) / 2.0 && r.trails[i].y == (height as real) / 2.0
    ensures width > MobileBreakpoint && c.isCustomCursor && !c.animating ==>
              r.animating && r.frames == c.frames + 1
              && r.trails[0].x == c.mouseX && r.trails[0].y == c.mouseY
    ensures width > MobileBreakpoint && c.isCustomCursor ==> r.bodyClass
    ensures r.isCustomCursor == c.isCustomCursor
    // the trail built: fresh nodes, advanced one frame when that frame runs at once
    ensures width > MobileBreakpoint && (!c.isCustomCursor || c.animating) ==>
              r.trails == FreshTrail(width, height, c.isCustomCursor)
    ensures width > MobileBreakpoint && c.isCustomCursor && !c.animating ==>
              r.trails == Advance(FreshTrail(width, height, true), c.mouseX, c.mouseY) && Painted(r.trails)
  {
    if width <= MobileBreakpoint then
      c.(trails := [])
    else
      AdvancePaintsAll(FreshTrail(width, height, true), c.mouseX, c.mouseY);
      var built := c.(trails := FreshTrail(width, height, c.isCustomCursor));
      if built.isCustomCursor then
        var marked := built.(bodyClass := true);
        if !marked.animating then UpdateCursor(marked) else marked
      else built
  }

  /** Sets every trail element's opacity, as both branches of the toggle do. */
  function SetOpacity(ts: seq<Node>, o: real): (r: seq<Node>)
    ensures |r| == |ts|
    ensures forall i :: 0 <= i < |ts| ==>
              r[i].style.opacity == o && SamePlace(r[i], ts[i])
              && r[i].isMain == ts[i].isMain && r[i].style.shown == ts[i].style.shown
  {
    seq(|ts|, i requires 0 <= i < |ts| => ts[i].(style := ts[i].style.(opacity := o)))
  }

  /**
   The cursor-toggle click: flips `isCustomCursor`; turning on shows every
   element and restarts the loop if none is running, turning off hides every
   element and cancels the pending frame.
   */
  function Toggle(c: Cursor): (r: Cursor)
    ensures r.isCustomCursor == !c.isCustomCursor && r.bodyClass == r.isCustomCursor
    ensures !r.isCustomCursor ==>
              !r.animating && forall i :: 0 <= i < |r.trails| ==> r.trails[i].style.opacity == 0.0
    ensures r.isCustomCursor && |c.trails| > 0 ==> r.animating
    // turning on shows every element; the frame run at once repaints the trailers
    ensures !c.isCustomCursor && !c.animating && WellFormed(c.trails) ==> Painted(r.trails)
    ensures !c.isCustomCursor && c.animating ==>
              forall i :: 0 <= i < |r.trails| ==> r.trails[i].style.opacity == 1.0
    ensures |r.trails| == |c.trails|
    // turning off keeps every element where it is and as it is, apart from its opacity
    ensures c.isCustomCursor ==>
              forall i :: 0 <= i < |c.trails| ==>
                SamePlace(r.trails[i], c.trails[i]) && r.trails[i].isMain == c.trails[i].isMain
                && r.trails[i].style.shown == c.trails[i].style.shown
    ensures c.isCustomCursor ==> r.mouseX == c.mouseX && r.mouseY == c.mouseY
  {
    if !c.isCustomCursor then
      assert !c.animating && WellFormed(c.trails) ==> Painted(UpdateCursor(c.(isCustomCursor := true, bodyClass := true, trails := SetOpacity(c.trails, 1.0))).trails) by {
        if !c.animating && WellFormed(c.trails) {
          AdvancePaintsAll(SetOpacity(c.trails, 1.0), c.mouseX, c.mouseY);
        }
      }
      var on := c.(isCustomCursor := true, bodyClass := true, trails := SetOpacity(c.trails, 1.0));
      if !on.animating then UpdateCursor(on) else on
    else
      CancelFrame(c.(isCustomCursor := false, bodyClass := false, trails := SetOpacity(c.trails, 0.0)))
  }

  /** Hides every trail element (`display: none`). */
  function Hide(ts: seq<Node>): (r: seq<Node>)
    ensures |r| == |ts|
    ensures forall i :: 0 <= i < |ts| ==>
              !r[i].style.shown && r[i] == ts[i].(style := r[i].style)
              && r[i].style == ts[i].style.(shown := false)
  {
    seq(|ts|, i requires 0 <= i < |ts| => ts[i].(style := ts[i].style.(shown := false)))
  }

  /**
   `handleMobileDetection`: at a mobile width the custom cursor is switched
   off, every element and the toggle button are hidden and the loop is
   cancelled; at any wider width nothing changes — in particular the cursor
   is never switched back on.
   */
  function HandleMobileDetection(c: Cursor, width: int): (r: Cursor)
    ensures width > MobileBreakpoint ==> r == c
    ensures width <= MobileBreakpoint ==>
              !r.isCustomCursor && !r.animating && !r.bodyClass && !r.toggleShown
              && |r.trails| == |c.trails|
              && forall i :: 0 <= i < |r.trails| ==> !r.trails[i].style.shown && SamePlace(r.trails[i], c.trails[i])
  {
    if width <= MobileBreakpoint then
      CancelFrame(c.(isCustomCursor := false, bodyClass := false, toggleShown := false, trails := Hide(c.trails)))
    else c
  }

  /** The `mousemove` listener: records the pointer and starts the loop if it is idle. */
  function MouseMove(c: Cursor, x: real, y: real): (r: Cursor)
    ensures r.mouseX == x && r.mouseY == y && |r.trails| == |c.trails|
    ensures c.isCustomCursor && !c.animating && |c.trails| > 0 ==>
              r.animating && (c.trails[0].attached ==> r.trails[0].x == x && r.trails[0].y == y)
    ensures c.animating || !c.isCustomCursor ==> r.trails == c.trails && r.frames == c.frames
  {
    var m := c.(mouseX := x, mouseY := y);
    if m.isCustomCursor && !m.animating then UpdateCursor(m) else m
  }

  /** The inputs that drive the cursor. */
  datatype Event =
    | Loaded(width: int, height: int)   // `initCursor` from the page-load sequence
    | ToggleClick
    | Resized(width: int)               // `handleMobileDetection`, on DOM-ready and after a debounced resize
    | PointerMoved(x: real, y: real)
    | FrameDue

  /**
   One handler invocation. Only the toggle can switch the cursor on, and only
   `initCursor` can resize the trail. A click reaches the toggle handler only
   while its button is displayed.
   */
  function Apply(c: Cursor, e: Event): (r: Cursor)
    ensures r.isCustomCursor && !c.isCustomCursor ==> e == ToggleClick && c.toggleShown
    ensures r.toggleShown ==> c.toggleShown
    ensures !e.Loaded? ==> |r.trails| == |c.trails|
    ensures (r.mouseX, r.mouseY) != (c.mouseX, c.mouseY) ==> e.PointerMoved?
  {
    match e
    case Loaded(w, h) => InitCursor(c, w, h)
    case ToggleClick => if c.toggleShown then Toggle(c) else c
    case Resized(w) => HandleMobileDetection(c, w)
    case PointerMoved(x, y) => MouseMove(c, x, y)
    case FrameDue => FrameFires(c)
  }

  /** The handlers invoked one after another. */
  function Run(c: Cursor, es: seq<Event>): (r: Cursor)
    ensures r.isCustomCursor && !c.isCustomCursor ==> ToggleClick in es
    // once the button is hidden with the cursor off, nothing switches it on again
    ensures !c.toggleShown && !c.isCustomCursor ==> !r.toggleShown && !r.isCustomCursor
    ensures (forall k :: 0 <= k < |es| ==> !es[k].Loaded?) ==> |r.trails| == |c.trails|
    decreases |es|
  {
    if |es| == 0 then c else Run(Apply(c, es[0]), es[1..])
  }

  /** A frame leaves the trail's shape alone. */
  lemma AdvanceWellFormed(ts: seq<Node>, mouseX: real, mouseY: real)
    requires WellFormed(ts)
    ensures WellFormed(Advance(ts, mouseX, mouseY))
  {
    AdvanceSkipsDetached(ts, mouseX, mouseY);
  }

  /** Every handler keeps `Good`: never two animation loops, never a loop with the cursor off. */
  lemma ApplyGood(c: Cursor, e: Event)
    requires Good(c)
    ensures Good(Apply(c, e))
  {
    AdvanceWellFormed(c.trails, c.mouseX, c.mouseY);
    match e
    case Loaded(w, h) =>
      if w > MobileBreakpoint {
        AdvanceWellFormed(FreshTrail(w, h, c.isCustomCursor), c.mouseX, c.mouseY);
      }
    case ToggleClick =>
      AdvanceWellFormed(SetOpacity(c.trails, 1.0), c.mouseX, c.mouseY);
    case Resized(w) =>
    case PointerMoved(x, y) =>
      AdvanceWellFormed(c.trails, x, y);
    case FrameDue =>
  }

  /** Every state the page can reach from the script's start is `Good`. */
  lemma {:induction false} RunGood(c: Cursor, es: seq<Event>)
    requires Good(c)
    ensures Good(Run(c, es))
    decreases |es|
  {
    if |es| > 0 {
      ApplyGood(c, es[0]);
      RunGood(Apply(c, es[0]), es[1..]);
    }
  }

  /**
   The loop terminates itself: once the cursor is off or the trail is empty,
   the pending frame (if any) fires without requesting another, and after
   that frames change nothing.
   */
  lemma FrameStops(c: Cursor)
    requires Good(c)
    requires !c.isCustomCursor || |c.trails| == 0
    ensures var r := FrameFires(c);
            !r.animating && r.frames == 0 && r.trails == c.trails && FrameFires(r) == r
  {
  }

  /** While the cursor is on with a trail, each frame requests exactly one successor. */
  lemma FrameContinues(c: Cursor)
    requires Good(c) && c.animating && |c.trails| > 0
    ensures var r := FrameFires(c);
            r.animating && r.frames == 1
            && r.trails == Advance(c.trails, c.mouseX, c.mouseY)
  {
  }

  /** `initCursor` discards whatever trail was there: the result does not depend on it. */
  lemma InitDiscardsOld(c: Cursor, old1: seq<Node>, old2: seq<Node>, width: int, height: int)
    ensures InitCursor(c.(trails := old1), width, height) == InitCursor(c.(trails := old2), width, height)
  {
  }

  /** Calling `initCursor` twice still leaves a list of twelve nodes (not twenty-four) and at most one frame. */
  lemma InitTwice(c: Cursor, width: int, height: int)
    requires Good(c)
    ensures var r := InitCursor(InitCursor(c, width, height), width, height);
            |r.trails| == (if width > MobileBreakpoint then TrailLength else 0)
            && Good(r) && r.frames <= 1
  {
    ApplyGood(c, Loaded(width, height));
    ApplyGood(InitCursor(c, width, height), Loaded(width, height));
  }

  /** The opacities a frame leaves: tail values on attached trailers, full opacity elsewhere. */
  predicate Painted(ts: seq<Node>)
  {
    forall i :: 0 <= i < |ts| ==>
      ts[i].style.opacity == (if ts[i].attached && !ts[i].isMain then TailOpacity(i) else 1.0)
  }

  /** Position and attachment, the parts of a node a frame reads. */
  predicate SamePlace(a: Node, b: Node)
  {
    a.x == b.x && a.y == b.y && a.targetX == b.targetX && a.targetY == b.targetY && a.attached == b.attached
  }

  /** A frame's positions depend only on the nodes' positions, never on their styles. */
  lemma {:induction false} AdvanceIgnoresStyle(ts: seq<Node>, us: seq<Node>, mouseX: real, mouseY: real, i: nat)
    requires |ts| == |us| && i < |ts|
    requires forall k :: 0 <= k < |ts| ==> SamePlace(ts[k], us[k])
    ensures SamePlace(Advance(ts, mouseX, mouseY)[i], Advance(us, mouseX, mouseY)[i])
    decreases i
  {
    var r := Advance(ts, mouseX, mouseY);
    var q := Advance(us, mouseX, mouseY);
    assert Stepped(ts, r, i, mouseX, mouseY);
    assert Stepped(us, q, i, mouseX, mouseY);
    assert SamePlace(ts[i], us[i]);
    if i > 0 {
      AdvanceIgnoresStyle(ts, us, mouseX, mouseY, i - 1);
    }
  }

  /** A frame over fully opaque, well-formed nodes leaves them `Painted`. */
  lemma AdvancePaintsAll(ts: seq<Node>, mouseX: real, mouseY: real)
    requires WellFormed(ts)
    requires forall i :: 0 <= i < |ts| ==> ts[i].style.opacity == 1.0
    ensures Painted(Advance(ts, mouseX, mouseY))
  {
    var r := Advance(ts, mouseX, mouseY);
    forall i | 0 <= i < |ts|
      ensures r[i].style.opacity == (if r[i].attached && !r[i].isMain then TailOpacity(i) else 1.0)
    {
      AdvanceSkipsDetached(ts, mouseX, mouseY);
      if ts[i].attached {
        AdvancePaints(ts, mouseX, mouseY, i);
      }
    }
  }

  /**
   Toggling twice from "on" restores the flag, the running loop (one frame
   outstanding) and every opacity a frame had painted; the click that turns
   the cursor back on runs one frame, so positions are those of one frame.
   */
  lemma ToggleTwiceFromOn(c: Cursor)
    requires Good(c) && c.isCustomCursor && |c.trails| > 0
    ensures var r := Toggle(Toggle(c));
            && r.isCustomCursor && r.bodyClass && r.animating && r.frames == 1
            && Painted(r.trails)
            && (Painted(c.trails) ==>
                  forall i :: 0 <= i < |c.trails| ==> r.trails[i].style.opacity == c.trails[i].style.opacity)
            && |r.trails| == |c.trails|
            && forall i :: 0 <= i < |c.trails| ==>
                 SamePlace(r.trails[i], Advance(c.trails, c.mouseX, c.mouseY)[i])
  {
    var off := Toggle(c);
    assert !off.animating && off.frames == 0;
    var lit := SetOpacity(off.trails, 1.0);
    assert off.trails == SetOpacity(c.trails, 0.0);
    AdvancePaintsAll(lit, c.mouseX, c.mouseY);
    AdvanceSkipsDetached(lit, c.mouseX, c.mouseY);
    forall i | 0 <= i < |c.trails|
      ensures SamePlace(Advance(lit, c.mouseX, c.mouseY)[i], Advance(c.trails, c.mouseX, c.mouseY)[i])
    {
      AdvanceIgnoresStyle(lit, c.trails, c.mouseX, c.mouseY, i);
    }
  }

  /**
   Clicking twice from "off" restores the flag, the body class, the idle loop
   and every opacity. With the button shown, the click that turns the cursor
   on runs one frame, so positions are those of one frame; with the button
   hidden, neither click reaches the handler.
   */
  lemma ToggleTwiceFromOff(c: Cursor)
    requires Good(c) && !c.isCustomCursor
    ensures var r := Apply(Apply(c, ToggleClick), ToggleClick);
            && !r.isCustomCursor && !r.bodyClass && !r.animating && r.frames == c.frames == 0
            && |r.trails| == |c.trails|
            && (forall i :: 0 <= i < |r.trails| ==> r.trails[i].style.opacity == c.trails[i].style.opacity)
            && (c.toggleShown ==>
                  forall i :: 0 <= i < |c.trails| ==> SamePlace(r.trails[i], Advance(c.trails, c.mouseX, c.mouseY)[i]))
            && (!c.toggleShown ==> r == c)
  {
    if c.toggleShown {
      var on := Toggle(c);
      assert on.frames <= 1 && (on.frames == 1 <==> on.animating);
      var lit := SetOpacity(c.trails, 1.0);
      forall i | 0 <= i < |c.trails|
        ensures SamePlace(Advance(lit, c.mouseX, c.mouseY)[i], Advance(c.trails, c.mouseX, c.mouseY)[i])
      {
        AdvanceIgnoresStyle(lit, c.trails, c.mouseX, c.mouseY, i);
      }
    }
  }

  /**
   Once a mobile width has switched the cursor off, it stays off: no later
   resize, and no later sequence of events at all, switches it back on.
   */
  lemma MobileIsFinal(c: Cursor, narrow: int, widths: seq<int>, later: seq<Event>)
    requires Good(c) && narrow <= MobileBreakpoint
    ensures var r := HandleMobileDetection(c, narrow);
            !r.isCustomCursor && !r.toggleShown && r.frames == 0 && FrameFires(r) == r
            && !ResizeAll(r, widths).isCustomCursor
            && !Run(r, later).isCustomCursor
  {
  }

  /** `handleMobileDetection` once per debounced resize, in order. The cursor survives exactly when no width was mobile. */
  function ResizeAll(c: Cursor, widths: seq<int>): (r: Cursor)
    ensures r.isCustomCursor <==> c.isCustomCursor && forall k :: 0 <= k < |widths| ==> widths[k] > MobileBreakpoint
    ensures |r.trails| == |c.trails|
    decreases |widths|
  {
    if |widths| == 0 then c else ResizeAll(HandleMobileDetection(c, widths[0]), widths[1..])
  }
}

=== FILE: projects.dfy ===
/**
 The project-details panels (js/main.js): `showProjectDetails` deactivates
 every panel and then activates the one whose element id is
 `details-<projectId>`; a close button deactivates the panel it sits in.
 */
module Projects {

  /** One `.project-details` element, in document order, and whether it carries `active`. */
  datatype Panel = Panel(id: string, active: bool)

  /** The id of the panel for a project: the project id after a fixed `details-` prefix. */
  function DetailsId(projectId: string): (id: string)
    ensures |id| == |projectId| + 8 && id[8..] == projectId
    ensures id[..8] == "details-"
  {
    "details-" + projectId
  }

  /** Different projects name different panels. */
  lemma DetailsIdInjective(a: string, b: string)
    ensures DetailsId(a) == DetailsId(b) <==> a == b
  {
    if DetailsId(a) == DetailsId(b) {
      assert a == DetailsId(a)[8..];
    }
  }

  /** `getElementById`: the first panel in document order with the id, or `|ps|` when there is none. */
  function FirstWithId(ps: seq<Panel>, id: string): (k: nat)
    ensures k <= |ps|
    ensures k < |ps| ==> ps[k].id == id
    ensures forall j :: 0 <= j < k ==> ps[j].id != id
    decreases |ps|
  {
    if |ps| == 0 then 0
    else if ps[0].id == id then 0
    else 1 + FirstWithId(ps[1..], id)
  }

  /** At most one panel is active. */
  predicate AtMostOneActive(ps: seq<Panel>)
  {
    forall i, j :: 0 <= i < |ps| && 0 <= j < |ps| && ps[i].active && ps[j].active ==> i == j
  }

  /**
   `showProjectDetails`: afterwards the only active panel is the first one
   with the requested id, and no panel is active if no panel has that id.
   */
  function ShowProjectDetails(ps: seq<Panel>, projectId: string): (r: seq<Panel>)
    ensures |r| == |ps|
    ensures forall i :: 0 <= i < |ps| ==> r[i].id == ps[i].id
    ensures AtMostOneActive(r)
    ensures forall i :: 0 <= i < |r| && r[i].active ==>
              r[i].id == DetailsId(projectId) && forall j :: 0 <= j < i ==> ps[j].id != DetailsId(projectId)
    ensures (exists i :: 0 <= i < |ps| && ps[i].id == DetailsId(projectId)) <==>
              (exists i :: 0 <= i < |r| && r[i].active)
  {
    var k := FirstWithId(ps, DetailsId(projectId));
    var r := seq(|ps|, i requires 0 <= i < |ps| => Panel(ps[i].id, i == k));
    assert (exists i :: 0 <= i < |ps| && ps[i].id == DetailsId(projectId)) ==> k < |ps| && r[k].active;
    r
  }

  /** A close button deactivates the panel that contains it and touches no other. */
  function CloseDetails(ps: seq<Panel>, i: nat): (r: seq<Panel>)
    requires i < |ps|
    ensures |r| == |ps| && !r[i].active && r[i].id == ps[i].id
    ensures forall j :: 0 <= j < |ps| && j != i ==> r[j] == ps[j]
  {
    ps[i := ps[i].(active := false)]
  }

  /** Showing a project and then closing its panel leaves nothing active. */
  lemma ShowThenClose(ps: seq<Panel>, projectId: string, i: nat)
    requires i < |ps| && ShowProjectDetails(ps, projectId)[i].active
    ensures var r := CloseDetails(ShowProjectDetails(ps, projectId), i);
            forall j :: 0 <= j < |r| ==> !r[j].active
  {
  }

  /** Showing the same project twice is the same as showing it once. */
  lemma ShowIdempotent(ps: seq<Panel>, projectId: string)
    ensures ShowProjectDetails(ShowProjectDetails(ps, projectId), projectId) == ShowProjectDetails(ps, projectId)
  {
    var r := ShowProjectDetails(ps, projectId);
    SameIdsSameFirst(ps, r, DetailsId(projectId));
  }

  lemma {:induction false} SameIdsSameFirst(ps: seq<Panel>, qs: seq<Panel>, id: string)
    requires |ps| == |qs| && forall i :: 0 <= i < |ps| ==> ps[i].id == qs[i].id
    ensures FirstWithId(ps, id) == FirstWithId(qs, id)
    decreases |ps|
  {
    if |ps| > 0 && ps[0].id != id {
      SameIdsSameFirst(ps[1..], qs[1..], id);
    }
  }
}

=== FILE: scroll.dfy ===
/**
 The scroll handlers' arithmetic (js/main.js): the progress bar's width as a
 percentage of the scrollable range, clamped to [0, 100], and the header's
 `scrolled` class past 50 pixels.
 */
module Scroll {

  /** Scroll offset, in pixels, past which the header carries `scrolled`. */
  const HeaderThreshold: real := 50.0

  /**
   The bar width JavaScript computes: a clamped percentage, or NaN when the
   scrollable range and the offset are both zero (0 / 0).
   */
  datatype Width = Percent(p: real) | NotANumber

  /** `Math.min(Math.max(v, lo), hi)`: the point of `[lo, hi]` nearest to `v`. */
  function Clamp(v: real, lo: real, hi: real): (r: real)
    requires lo <= hi
    ensures lo <= r <= hi
    ensures lo <= v <= hi ==> r == v
    ensures v < lo ==> r == lo
    ensures v > hi ==> r == hi
  {
    if v < lo then lo else if v > hi then hi else v
  }

  /**
   `Math.min(Math.max(scrollY / (scrollHeight - innerHeight) * 100, 0), 100)`.
   With a zero range the division yields +Infinity or -Infinity (clamped to
   100 or 0) for a non-zero offset, and NaN for a zero offset.
   */
  function ScrollWidth(scrollY: real, documentHeight: real, viewportHeight: real): (w: Width)
    ensures w.Percent? ==> 0.0 <= w.p <= 100.0
    ensures w.NotANumber? <==> documentHeight == viewportHeight && scrollY == 0.0
    // within the scrollable range the width is the exact fraction scrolled
    ensures documentHeight > viewportHeight && 0.0 <= scrollY <= documentHeight - viewportHeight ==>
              w == Percent(scrollY * 100.0 / (documentHeight - viewportHeight))
    // past either end it sticks to the end
    ensures documentHeight > viewportHeight && scrollY >= documentHeight - viewportHeight ==> w == Percent(100.0)
    ensures documentHeight > viewportHeight && scrollY <= 0.0 ==> w == Percent(0.0)
  {
    var range := documentHeight - viewportHeight;
    if range == 0.0 then
      if scrollY > 0.0 then Percent(100.0)
      else if scrollY < 0.0 then Percent(0.0)
      else NotANumber
    else
      var raw := scrollY / range * 100.0;
      assert range > 0.0 && scrollY >= range ==> raw >= 100.0 by {
        if range > 0.0 && scrollY >= range {
          DivMonotone(range, scrollY, range);
          assert range / range == 1.0;
        }
      }
      assert range > 0.0 && scrollY <= 0.0 ==> raw <= 0.0;
      Percent(Clamp(raw, 0.0, 100.0))
  }

  /**
   `updateScrollIndicator`: the bar takes the new width; a NaN width is not a
   valid CSS length, so the browser keeps the previous one.
   */
  function UpdateScrollIndicator(previous: real, scrollY: real, documentHeight: real, viewportHeight: real): (width: real)
    ensures 0.0 <= previous <= 100.0 ==> 0.0 <= width <= 100.0
    ensures documentHeight != viewportHeight ==> ScrollWidth(scrollY, documentHeight, viewportHeight) == Percent(width)
    // the bar takes every number computed; a NaN width leaves the previous one in place
    ensures ScrollWidth(scrollY, documentHeight, viewportHeight) == Percent(width)
            || (ScrollWidth(scrollY, documentHeight, viewportHeight).NotANumber? && width == previous)
    ensures documentHeight == viewportHeight && scrollY == 0.0 ==> width == previous
  {
    match ScrollWidth(scrollY, documentHeight, viewportHeight)
    case Percent(p) => p
    case NotANumber => previous
  }

  /** Scrolling further down never shrinks the bar. */
  lemma ScrollWidthMonotone(y1: real, y2: real, documentHeight: real, viewportHeight: real)
    requires documentHeight > viewportHeight && y1 <= y2
    ensures ScrollWidth(y1, documentHeight, viewportHeight).p <= ScrollWidth(y2, documentHeight, viewportHeight).p
  {
    DivMonotone(y1, y2, documentHeight - viewportHeight);
  }

  lemma DivMonotone(a: real, b: real, d: real)
    requires 0.0 < d && a <= b
    ensures a / d <= b / d
  {
    var q1, q2 := a / d, b / d;
    assert q1 * d == a && q2 * d == b;
  }

  /** A 2000-pixel page in a 1000-pixel viewport: half-way at 500, full (clamped) at 1200. */
  lemma ScrollScenario()
    ensures ScrollWidth(500.0, 2000.0, 1000.0) == Percent(50.0)
    ensures ScrollWidth(1200.0, 2000.0, 1000.0) == Percent(100.0)
  {
  }

  /** `updateHeader`: whether the header carries `scrolled` after the handler, whatever it carried before. */
  function UpdateHeader(wasScrolled: bool, scrollY: real): (scrolled: bool)
    ensures scrolled ==> scrollY > HeaderThreshold
    ensures !scrolled ==> scrollY <= HeaderThreshold
  {
    scrollY > HeaderThreshold
  }

  /** The header state is a threshold on the offset alone: monotone, and independent of the previous class. */
  lemma HeaderThresholdMonotone(was1: bool, was2: bool, y1: real, y2: real)
    requires y1 <= y2
    ensures UpdateHeader(was1, y1) ==> UpdateHeader(was2, y2)
    ensures UpdateHeader(was1, y1) == UpdateHeader(was2, y1)
  {
  }
}

=== FILE: trail.dfy ===
/**
 The cursor trail chain: a leader that snaps to the pointer and eleven
 trailers, each easing toward the position its predecessor reached in the
 same frame (js/main.js, `updateCursor`). Positions are exact reals rather
 than IEEE doubles.
 */
module Trail {

  /** Number of nodes `initCursor` builds: the main cursor plus eleven trailers. */
  const TrailLength: nat := 12

  /** The tail look a frame paints on a trailer; `Plain` is the look a node is created with. */
  datatype Look = Plain | Tinted(scale: real, hue: int, saturation: int)

  /** The style properties of a node's element that the cursor code writes. */
  datatype Style = Style(left: real, top: real, opacity: real, shown: bool, look: Look)

  /** One entry of `cursorTrails`; `attached` is false once the element has left the document. */
  datatype Node = Node(
    x: real, y: real,
    targetX: real, targetY: real,
    isMain: bool,
    attached: bool,
    style: Style)

  /** Fraction of the remaining distance trailer `i` closes in one frame. */
  function Ease(i: nat): (e: real)
    ensures e <= 0.15
    ensures i < TrailLength ==> 0.09 < e
  {
    0.15 - (i as real) * 0.005
  }

  function TailScale(i: nat): (s: real)
    ensures 0.2 <= s <= 1.0
  {
    var raw := 1.0 - (i as real) * 0.08;
    if raw < 0.2 then 0.2 else raw
  }

  function TailOpacity(i: nat): (o: real)
    ensures 0.05 <= o <= 0.7
  {
    var raw := 0.7 - (i as real) * 0.06;
    if raw < 0.05 then 0.05 else raw
  }

  function TailHue(i: nat): (h: int)
    ensures 330 <= h
  {
    330 + 3 * i
  }

  function TailSaturation(i: nat): (s: int)
    ensures 50 <= s <= 100
  {
    var raw := 100 - 5 * i;
    if raw < 50 then 50 else raw
  }

  /** Easing slows down the tail: a later trailer closes a smaller fraction. */
  lemma EaseDecreasing(i: nat, j: nat)
    requires i < j
    ensures Ease(j) < Ease(i)
  {
  }

  /** Scale, opacity and saturation never grow and hue never shrinks down the tail. */
  lemma TailFades(i: nat, j: nat)
    requires i <= j
    ensures TailScale(j) <= TailScale(i)
    ensures TailOpacity(j) <= TailOpacity(i)
    ensures TailSaturation(j) <= TailSaturation(i)
    ensures TailHue(i) <= TailHue(j)
  {
  }

  /**
   One iteration of the `forEach` in `updateCursor` for the node at `index`;
   `prev` is the predecessor as this frame has already left it.
   */
  function StepNode(n: Node, index: nat, mouseX: real, mouseY: real, prev: Node): (m: Node)
    ensures !n.attached ==> m == n
    ensures m.isMain == n.isMain && m.attached == n.attached && m.style.shown == n.style.shown
    // the leader snaps onto the pointer
    ensures n.attached && index == 0 ==>
              m.x == mouseX && m.y == mouseY && m.targetX == mouseX && m.targetY == mouseY
    // a trailer aims at its predecessor and closes the fraction `Ease(index)` of the gap
    ensures n.attached && index > 0 ==>
              m.targetX == prev.x && m.targetY == prev.y
              && m.x - n.x == (prev.x - n.x) * Ease(index) && m.y - n.y == (prev.y - n.y) * Ease(index)
    // an attached element is drawn where its node now is; only trailers get the tail look
    ensures n.attached ==> m.style.left == m.x && m.style.top == m.y
    ensures n.attached && n.isMain ==> m.style.opacity == n.style.opacity && m.style.look == n.style.look
    ensures n.attached && !n.isMain ==>
              m.style.opacity == TailOpacity(index)
              && m.style.look == Tinted(TailScale(index), TailHue(index), TailSaturation(index))
  {
    if !n.attached then n
    else
      var moved :=
        if index == 0 then
          n.(targetX := mouseX, targetY := mouseY, x := mouseX, y := mouseY)
        else
          var e := Ease(index);
          n.(targetX := prev.x, targetY := prev.y,
             x := n.x + (prev.x - n.x) * e,
             y := n.y + (prev.y - n.y) * e);
      var painted := moved.style.(left := moved.x, top := moved.y);
      if moved.isMain then moved.(style := painted)
      else
        moved.(style := painted.(
                 opacity := TailOpacity(index),
                 look := Tinted(TailScale(index), TailHue(index), TailSaturation(index))))
  }

  /** The node trailer `i` follows: its predecessor as this frame left it (the leader ignores it). */
  function Before(ts: seq<Node>, r: seq<Node>, i: nat): Node
    requires 0 <= i < |ts| && i <= |r|
  {
    if i == 0 then ts[0] else r[i - 1]
  }

  /** Entry `i` of `r` is what the frame makes of `ts[i]`, given the entries of `r` before it. */
  predicate Stepped(ts: seq<Node>, r: seq<Node>, i: nat, mouseX: real, mouseY: real)
    requires 0 <= i < |ts| && i < |r|
  {
    r[i] == StepNode(ts[i], i, mouseX, mouseY, Before(ts, r, i))
  }

  /**
   One frame of the chain: nodes are updated in ascending index order, so
   trailer `i` follows the position trailer `i - 1` reached in this frame,
   not the one it had before the frame.
   */
  function Advance(ts: seq<Node>, mouseX: real, mouseY: real): (r: seq<Node>)
    ensures |r| == |ts|
    ensures forall i :: 0 <= i < |ts| ==> Stepped(ts, r, i, mouseX, mouseY)
    decreases |ts|
  {
    if |ts| == 0 then []
    else
      var last := |ts| - 1;
      var front := Advance(ts[..last], mouseX, mouseY);
      var r := front + [StepNode(ts[last], last, mouseX, mouseY, if last == 0 then ts[0] else front[last - 1])];
      assert forall i | 0 <= i < last :: Stepped(ts, r, i, mouseX, mouseY) by {
        forall i | 0 <= i < last
          ensures Stepped(ts, r, i, mouseX, mouseY)
        {
          assert Stepped(ts[..last], front, i, mouseX, mouseY);
          assert Before(ts, r, i) == Before(ts[..last], front, i);
        }
      }
      assert Stepped(ts, r, last, mouseX, mouseY);
      r
  }

  /** Detached elements are skipped altogether, and a frame never changes which node is main or attached. */
  lemma AdvanceSkipsDetached(ts: seq<Node>, mouseX: real, mouseY: real)
    ensures var r := Advance(ts, mouseX, mouseY);
            && (forall i :: 0 <= i < |ts| && !ts[i].attached ==> r[i] == ts[i])
            && (forall i :: 0 <= i < |ts| ==> r[i].isMain == ts[i].isMain && r[i].attached == ts[i].attached)
  {
  }

  /** The leader lands on the pointer exactly, with no easing. */
  lemma AdvanceLeader(ts: seq<Node>, mouseX: real, mouseY: real)
    requires |ts| > 0 && ts[0].attached
    ensures var r := Advance(ts, mouseX, mouseY);
            r[0].x == mouseX && r[0].y == mouseY && r[0].targetX == mouseX && r[0].targetY == mouseY
  {
    assert Stepped(ts, Advance(ts, mouseX, mouseY), 0, mouseX, mouseY);
  }

  /** Each attached trailer targets its predecessor's new position and closes `Ease(i)` of the gap. */
  lemma AdvanceFollows(ts: seq<Node>, mouseX: real, mouseY: real, i: nat)
    requires 1 <= i < |ts| && ts[i].attached
    ensures var r := Advance(ts, mouseX, mouseY);
            && r[i].targetX == r[i-1].x && r[i].targetY == r[i-1].y
            && r[i].x == ts[i].x + (r[i-1].x - ts[i].x) * Ease(i)
            && r[i].y == ts[i].y + (r[i-1].y - ts[i].y) * Ease(i)
  {
    assert Stepped(ts, Advance(ts, mouseX, mouseY), i, mouseX, mouseY);
  }

  /**
   An attached element is drawn where its node now is; trailers get the
   fading tail look, the main cursor keeps its own opacity and look.
   */
  lemma AdvancePaints(ts: seq<Node>, mouseX: real, mouseY: real, i: nat)
    requires 0 <= i < |ts| && ts[i].attached
    ensures var r := Advance(ts, mouseX, mouseY);
            && r[i].style.left == r[i].x && r[i].style.top == r[i].y
            && r[i].style.shown == ts[i].style.shown
            && (!ts[i].isMain ==>
                  r[i].style.opacity == TailOpacity(i)
                  && r[i].style.look == Tinted(TailScale(i), TailHue(i), TailSaturation(i)))
            && (ts[i].isMain ==>
                  r[i].style.opacity == ts[i].style.opacity && r[i].style.look == ts[i].style.look)
  {
    assert Stepped(ts, Advance(ts, mouseX, mouseY), i, mouseX, mouseY);
  }

  /** Trailers never fade below the floors: scale 0.2, opacity 0.05, saturation 50. */
  lemma AdvanceFloors(ts: seq<Node>, mouseX: real, mouseY: real, i: nat)
    requires 0 <= i < |ts| && ts[i].attached && !ts[i].isMain
    ensures var r := Advance(ts, mouseX, mouseY);
            && r[i].style.opacity >= 0.05
            && r[i].style.look.Tinted?
            && r[i].style.look.scale >= 0.2
            && r[i].style.look.saturation >= 50
  {
    AdvancePaints(ts, mouseX, mouseY, i);
  }

  /**
   The same frame written as `updateCursor` writes it: a loop over a mutable list
   that overwrites each entry in place, in index order.
   */
  method AdvanceInPlace(ts: seq<Node>, mouseX: real, mouseY: real) returns (r: seq<Node>)
    ensures r == Advance(ts, mouseX, mouseY)
  {
    r := ts;
    var i := 0;
    while i < |r|
      invariant 0 <= i <= |ts| == |r|
      invariant r[..i] == Advance(ts[..i], mouseX, mouseY)
      invariant r[i..] == ts[i..]
    {
      var prev := if i == 0 then r[0] else r[i - 1];
      assert ts[..i + 1][..i] == ts[..i];
      assert r[i] == ts[i];
      r := r[i := StepNode(r[i], i, mouseX, mouseY, prev)];
      i := i + 1;
    }
    assert r[..i] == r && ts[..i] == ts;
  }

  function Abs(a: real): real
  {
    if a < 0.0 then -a else a
  }

  /**
   A trailer moves toward its predecessor: the remaining distance shrinks by
   the factor `1 - Ease(i)`, and strictly whenever it was not already zero.
   */
  lemma {:induction false} AdvanceApproaches(ts: seq<Node>, mouseX: real, mouseY: real, i: nat)
    requires 1 <= i < |ts| && i < TrailLength
    requires ts[i].attached
    ensures var r := Advance(ts, mouseX, mouseY);
            Closes(ts[i].x, r[i-1].x, r[i].x, Ease(i)) && Closes(ts[i].y, r[i-1].y, r[i].y, Ease(i))
  {
    var r := Advance(ts, mouseX, mouseY);
    AdvanceFollows(ts, mouseX, mouseY, i);
    FollowCloses(ts[i], r[i-1], r[i], Ease(i));
  }

  /** A node that moved the fraction `e` toward `p` on both axes has closed in on `p`. */
  lemma FollowCloses(n: Node, p: Node, moved: Node, e: real)
    requires 0.0 < e < 1.0
    requires moved.x == n.x + (p.x - n.x) * e && moved.y == n.y + (p.y - n.y) * e
    ensures Closes(n.x, p.x, moved.x, e) && Closes(n.y, p.y, moved.y, e)
  {
    ShrinkBy(n.x, p.x, moved.x, e);
    ShrinkBy(n.y, p.y, moved.y, e);
  }

  /**
   Going from `a` to `a'` toward `b` left the fraction `1 - e` of the distance:
   never farther, and strictly closer unless already there.
   */
  predicate Closes(a: real, b: real, a': real, e: real)
  {
    && a' - b == (1.0 - e) * (a - b)
    && Abs(a' - b) <= Abs(a - b)
    && (a != b ==> Abs(a' - b) < Abs(a - b))
  }

  /** Moving a fraction `e` of the way from `a` to `b` leaves `1 - e` of the distance. */
  lemma ShrinkBy(a: real, b: real, a': real, e: real)
    requires 0.0 < e < 1.0
    requires a' == a + (b - a) * e
    ensures Closes(a, b, a', e)
  {
    var d := a - b;
    var k := 1.0 - e;
    var m := k * d;
    assert a' - b == m;
    assert m == d - e * d;
    if d > 0.0 {
      PositiveProduct(e, d);
      PositiveProduct(k, d);
      assert 0.0 < m < d;
    } else if d < 0.0 {
      PositiveProduct(e, -d);
      PositiveProduct(k, -d);
      assert d < m < 0.0;
    }
  }

  lemma PositiveProduct(x: real, y: real)
    requires 0.0 < x && 0.0 < y
    ensures 0.0 < x * y
  {
  }
}

=== FILE: typewriter.dfy ===
/**
 The typewriter rotator of `initTypewriter` (js/main.js): one character typed
 per tick up to the full string, a pause, one character deleted per tick down
 to nothing, a pause, then the next of four strings. The closure's three
 variables are the state; each tick yields the text written and the delay
 before the next tick.
 */
module Typewriter {

  const Texts: seq<string> := [
    "Desarrollador Full Stack especializado en experiencias digitales únicas",
    "Experto en React, Node.js y tecnologías modernas",
    "Creando el futuro con código limpio y eficiente",
    "Transformando ideas en realidades digitales"
  ]

  /** Delays in milliseconds before the next tick. */
  const TypeDelay: nat := 60
  const DeleteDelay: nat := 30
  const FullPause: nat := 1500
  const EmptyPause: nat := 300

  /** `textIndex`, `charIndex` and `isDeleting` of the closure. */
  datatype Writer = Writer(textIndex: nat, charIndex: int, isDeleting: bool)

  /** What one tick does: the next state, the text it writes, and the delay it schedules. */
  datatype Tick = Tick(next: Writer, shown: string, delay: nat)

  /** The writer at the start of string `t`. */
  function Start(t: nat): Writer
  {
    Writer(t, 0, false)
  }

  /** A list the rotator can cycle through: at least one string, and no empty string. */
  predicate Rotation(texts: seq<string>)
  {
    |texts| > 0 && forall t :: 0 <= t < |texts| ==> |texts[t]| > 0
  }

  /** The page's four strings form such a list. */
  lemma TextsRotation()
    ensures Rotation(Texts) && |Texts| == 4
  {
  }

  /**
   The states the rotator can be in between ticks: a valid string index,
   and a character index that still has a character to type (typing) or to
   delete (deleting).
   */
  predicate Valid(texts: seq<string>, w: Writer)
  {
    && Rotation(texts)
    && w.textIndex < |texts|
    && (if w.isDeleting then 1 <= w.charIndex <= |texts[w.textIndex]|
        else 0 <= w.charIndex < |texts[w.textIndex]|)
  }

  /** One call of `typeWriter` over the list `texts`. */
  function Step(texts: seq<string>, w: Writer): (k: Tick)
    requires Valid(texts, w)
    ensures Valid(texts, k.next)
    // the text written is always a prefix of the string the next tick works on
    ensures k.shown == texts[k.next.textIndex][..k.next.charIndex]
    // typing reveals one more character of the current string, deleting hides one
    ensures !w.isDeleting ==> k.shown == texts[w.textIndex][..w.charIndex + 1]
    ensures w.isDeleting ==> k.shown == texts[w.textIndex][..w.charIndex - 1]
    // pauses at the full string and at the empty string, otherwise the typing or deleting speed
    ensures k.delay == FullPause <==> !w.isDeleting && w.charIndex + 1 == |texts[w.textIndex]|
    ensures k.delay == EmptyPause <==> w.isDeleting && w.charIndex == 1
    ensures k.delay == TypeDelay <==> !w.isDeleting && w.charIndex + 1 < |texts[w.textIndex]|
    ensures k.delay == DeleteDelay <==> w.isDeleting && w.charIndex > 1
    // reaching the full string turns to deleting; emptying it moves on to the next string
    ensures k.next.isDeleting != w.isDeleting <==> (k.delay == FullPause || k.delay == EmptyPause)
    ensures k.next.textIndex == (if k.delay == EmptyPause then (w.textIndex + 1) % |texts| else w.textIndex)
  {
    var current := texts[w.textIndex];
    var charIndex := if w.isDeleting then w.charIndex - 1 else w.charIndex + 1;
    var shown := current[..charIndex];
    if !w.isDeleting && charIndex == |current| then
      Tick(Writer(w.textIndex, charIndex, true), shown, FullPause)
    else if w.isDeleting && charIndex == 0 then
      var next := (w.textIndex + 1) % |texts|;
      Tick(Writer(next, 0, false), shown, EmptyPause)
    else
      Tick(Writer(w.textIndex, charIndex, w.isDeleting), shown, if w.isDeleting then DeleteDelay else TypeDelay)
  }

  /** The state after `n` ticks. */
  function Run(texts: seq<string>, w: Writer, n: nat): (r: Writer)
    requires Valid(texts, w)
    ensures Valid(texts, r)
    decreases n
  {
    if n == 0 then w else Run(texts, Step(texts, w).next, n - 1)
  }

  lemma {:induction false} RunAdd(texts: seq<string>, w: Writer, a: nat, b: nat)
    requires Valid(texts, w)
    ensures Run(texts, w, a + b) == Run(texts, Run(texts, w, a), b)
    decreases a
  {
    if a > 0 {
      RunAdd(texts, Step(texts, w).next, a - 1, b);
    }
  }

  /** Typing from position `j`: `k` ticks later `j + k` characters are typed, and at the full string it turns to deleting. */
  lemma {:induction false} TypingPhase(texts: seq<string>, t: nat, j: nat, k: nat)
    requires Rotation(texts) && t < |texts| && j + k <= |texts[t]| && j < |texts[t]|
    ensures Run(texts, Writer(t, j, false), k) ==
              if j + k < |texts[t]| then Writer(t, j + k, false) else Writer(t, j + k, true)
    decreases k
  {
    if k > 0 {
      var w := Writer(t, j, false);
      if j + 1 < |texts[t]| {
        assert Step(texts, w).next == Writer(t, j + 1, false);
        TypingPhase(texts, t, j + 1, k - 1);
      } else {
        assert Step(texts, w).next == Writer(t, j + 1, true);
        assert k == 1;
      }
    }
  }

  /** Deleting from position `j`: `k` ticks later `j - k` characters remain, and at none the next string starts. */
  lemma {:induction false} DeletingPhase(texts: seq<string>, t: nat, j: nat, k: nat)
    requires Rotation(texts) && t < |texts| && 1 <= j <= |texts[t]| && k <= j
    ensures Run(texts, Writer(t, j, true), k) ==
              if k < j then Writer(t, j - k, true) else Start((t + 1) % |texts|)
    decreases k
  {
    if k > 0 {
      var w := Writer(t, j, true);
      if j > 1 {
        assert Step(texts, w).next == Writer(t, j - 1, true);
        DeletingPhase(texts, t, j - 1, k - 1);
      } else {
        assert Step(texts, w).next == Start((t + 1) % |texts|);
        assert k == 1;
      }
    }
  }

  /** One full cycle on string `t` takes `2 * |texts[t]|` ticks and ends at the start of the next string. */
  lemma Cycle(texts: seq<string>, t: nat)
    requires Rotation(texts) && t < |texts|
    ensures Run(texts, Start(t), 2 * |texts[t]|) == Start((t + 1) % |texts|)
  {
    var n := |texts[t]|;
    TypingPhase(texts, t, 0, n);
    DeletingPhase(texts, t, n, n);
    RunAdd(texts, Start(t), n, n);
  }

  /** The page's rotation is periodic: after all four cycles the writer is back at its start. */
  lemma Period()
    ensures Valid(Texts, Start(0))
    ensures Run(Texts, Start(0), 2 * (|Texts[0]| + |Texts[1]| + |Texts[2]| + |Texts[3]|)) == Start(0)
  {
    TextsRotation();
    var a, b, c, d := 2 * |Texts[0]|, 2 * |Texts[1]|, 2 * |Texts[2]|, 2 * |Texts[3]|;
    Cycle(Texts, 0); Cycle(Texts, 1); Cycle(Texts, 2); Cycle(Texts, 3);
    RunAdd(Texts, Start(0), a, b + c + d);
    RunAdd(Texts, Start(1), b, c + d);
    RunAdd(Texts, Start(2), c, d);
    assert a + b + c + d == 2 * (|Texts[0]| + |Texts[1]| + |Texts[2]| + |Texts[3]|);
  }

  /**
   On the page, the `|Texts[0]|`-th tick writes the whole first string and
   pauses 1500 ms; the tick after that deletes one character at 30 ms.
   */
  lemma FirstStringTyped()
    ensures Valid(Texts, Start(0)) && |Texts[0]| > 1
    ensures var n := |Texts[0]|;
            var last := Step(Texts, Run(Texts, Start(0), n - 1));
            last.shown == Texts[0] && last.delay == FullPause
            && Step(Texts, last.next).delay == DeleteDelay
            && Step(Texts, last.next).shown == Texts[0][..n - 1]
  {
    TextsRotation();
    var n := |Texts[0]|;
    TypingPhase(Texts, 0, 0, n - 1);
    assert Texts[0][..n] == Texts[0];
  }
}
